=== FILE: README.md ===
# QuickEdit and TypeWriter, modelled in Dafny

This project models two small pieces of sequential logic from a Unity project:

* **QuickEdit** (`Assets/Editor/QuickEdit.cs`). These are editor menu commands over the selected scene objects:
  * copy and paste of local position, euler angles and scale, paired in sibling-index order;
  * show/hide of a selection;
  * moving the selection to the parent;
  * copying the selection's position, rotation or scale to the clipboard as a C# source snippet.

  Transforms are immutable records (`Transforms.Transform`) held in a scene map from object identity to record. Each command is a function from the editor state to a `Reply`: the next state, plus the console notice the command logs when it refuses. The static `isCopy`/`cpTransforms` pair is the copy buffer. It holds object identities, so a paste reads the copied objects' values as they are at paste time, just as the C# array of references does.
* **Effect_TypeWriter** (`Assets/Scripts/1Effect/Effect_UI/Effect_TypeWriter.cs`). This is a step-driven state machine over:
  * the index;
  * the source string;
  * the displayed text (both as UTF-16 code units, the unit that C# `Length`, `m_index` and `Remove` count, so a character outside the Basic Multilingual Plane takes two steps);
  * the queue of pending delayed invocations;
  * the finish callbacks fired so far.

  Scheduling through the delayed-invocation helper appends to the queue. `Common_DelayToInvoke.Stop` empties it. The scheduler (`Tick`) runs the earliest pending action. An action that throws ends only its own coroutine: the fields it assigned before the throw keep their values, and every other pending invocation still runs.

Modules:
* `Common`: option and result types, and distinctness facts.
* `Transforms`: the data model.
* `SiblingSort`: the selection sort and its reference definition.
* `Clipboard`: the snippet layout.
* `QuickEdit`: the commands.
* `TypeWriter`: the typewriter state machine.

Two behaviours of the code that the model keeps:

* The selection sort is not stable. When two objects share a sibling index (they have different parents), the result depends on the input order. This is why the paste command keeps the copied objects in the order it sorted them into: the C# method sorts `cpTransforms` in place through `ref`.
* The typewriter shows `s[..k-1]` after step `k`, so the first step shows nothing. The last step shows the whole string at once. For a string of two or more code units this adds the final two code units together; for a one-unit string the single step shows that unit.

## Model

| member | source | states |
|---|---|---|
| `SiblingSort.Swap` | Assets/Editor/QuickEdit.cs:478-483 | exchanges exactly the two referenced cells; every other cell is unchanged and the multiset of elements is the same |
| `SiblingSort.FirstMinIndex` | Assets/Editor/QuickEdit.cs:458-467 | the position a sort round selects: the first position in the unsorted tail holding the least sibling index |
| `SiblingSort.ScanForMinimum` | Assets/Editor/QuickEdit.cs:458-467 | the inner loop as written (strict `<` against a running minimum reset to `int.MaxValue`) finds that first least position whenever every sibling index is below `int.MaxValue` |
| `SiblingSort.SortFrom` | Assets/Editor/QuickEdit.cs:456-469 | the remaining sort rounds keep the length and the multiset of the array |
| `SiblingSort.SortFromSorted` | Assets/Editor/QuickEdit.cs:456-469 | each round extends the settled prefix, so the rounds end with sibling indices non-decreasing |
| `SiblingSort.SelectionSortCorrect` | Assets/Editor/QuickEdit.cs:451-470 | the sort's output is ordered by sibling index and is a permutation of its input |
| `SiblingSort.SelectionSortIdempotent` | Assets/Editor/QuickEdit.cs:451-470 | an already ordered array is left exactly as it is, so sorting the copy buffer again on a later paste is harmless |
| `SiblingSort.OrderTransformsBySiblingIndex` | Assets/Editor/QuickEdit.cs:451-470 | the in-place loop nest, with `minIndex` carried across rounds, computes the reference sort; its result is sorted by sibling index and a permutation of the input |
| `QuickEdit.SiblingOrder` | Assets/Editor/QuickEdit.cs:79-80 | a selection in sibling-index order holds the same objects without repeats, sibling indices non-decreasing, and its records are the sorted records |
| `QuickEdit.CopyTransform` | Assets/Editor/QuickEdit.cs:51-55 | copying records the current selection as the copy buffer and changes nothing else |
| `QuickEdit.PastePlan` | Assets/Editor/QuickEdit.cs:64-80 | a paste is refused without a prior copy, or when the selection and the copy differ in size; otherwise both are put in sibling-index order |
| `QuickEdit.PasteTransform` | Assets/Editor/QuickEdit.cs:62-91 | refusals leave the editor unchanged and log their notice; a paste gives the k-th target in sibling order the local position, euler angles and scale of the k-th copied object in sibling order, changes no other object or field, and keeps the sorted copy order (corrected: reads every copied value before writing; see ## Findings) |
| `QuickEdit.PasteTransformAsWritten` | Assets/Editor/QuickEdit.cs:62-91 | the same guards with the loop as written; for every input the set of objects is kept and every object outside the selection is unchanged; the result equals `PasteTransform` whenever no target is read later as a copied object |
| `QuickEdit.PasteInOrder` | Assets/Editor/QuickEdit.cs:85-90 | the sequential paste loop changes only local vectors, keeps the set of objects, and leaves every object outside the remaining targets unchanged |
| `QuickEdit.PasteSnapshot` | Assets/Editor/QuickEdit.cs:85-90 | writing values read before the loop gives each target its partner's pre-paste values and leaves all other objects unchanged |
| `QuickEdit.InOrderPastesWithoutAlias` | Assets/Editor/QuickEdit.cs:85-90 | without aliasing between earlier targets and later copied objects, the sequential loop gives the promised pairing |
| `QuickEdit.PasteAliasCounterexample` | Assets/Editor/QuickEdit.cs:85-90 | after copying {A, B} and pasting into {B, C}, the loop as written gives C the position of A, not the position B had |
| `QuickEdit.CopyThenPasteRestores` | Assets/Editor/QuickEdit.cs:51-91 | pasting straight after copying the same selection leaves the scene unchanged, with either loop |
| `QuickEdit.IsAllObjectsActiveSame` | Assets/Editor/QuickEdit.cs:333-342 | true exactly when every selected object has the active state of the first (vacuously for an empty or single selection) |
| `QuickEdit.ChangeObjectsState` | Assets/Editor/QuickEdit.cs:317-327 | every target gets the given active state; every other object is unchanged |
| `QuickEdit.ActiveSelections` | Assets/Editor/QuickEdit.cs:297-311 | an empty selection changes nothing and logs a notice; if all agree, each becomes the negation of the first's state; otherwise each becomes active; in both cases all selected objects end equal and nothing else changes |
| `QuickEdit.ActiveSelectionsTwiceRestores` | Assets/Editor/QuickEdit.cs:307-308 | on a selection whose states agree, two presses restore the editor exactly |
| `QuickEdit.ActiveSelectionsMixedTwice` | Assets/Editor/QuickEdit.cs:307-310 | a mixed selection is shown by the first press and hidden by the second |
| `QuickEdit.SelectParent` | Assets/Editor/QuickEdit.cs:272-290 | no active object, or an active root object, leaves the editor unchanged with the matching notice; otherwise the target's parent becomes the only selected and active object; scene and copy buffer never change |
| `QuickEdit.CopyTransformInfo` | Assets/Editor/QuickEdit.cs:381-410 | an empty selection yields no text; otherwise the text is the snippet of the chosen vector of each selected object in sibling-index order |
| `Clipboard.VarName` | Assets/Editor/QuickEdit.cs:418 | the enum name lower-cased is `position`, `rotation` or `scale` |
| `Clipboard.CopyVec3ToClipboard` | Assets/Editor/QuickEdit.cs:416-435 | the text built item by item, with `", "` after every item but the last, equals the header, the items joined by `", "`, and the footer |
| `Clipboard.SingleVectorText` | Assets/Editor/QuickEdit.cs:421-435 | one vector gives `Vector3 <name> = new Vector3(<x>f, <y>f, <z>f);` |
| `Clipboard.ArrayText` | Assets/Editor/QuickEdit.cs:421-435 | several vectors give `Vector3[] <name>s = new Vector3[] { ` then the items joined by `", "` (first item first, last item last) then ` };` |
| `Clipboard.EmptyText` | Assets/Editor/QuickEdit.cs:421-435 | called with no vectors the serialiser would emit a header closed by a bare `;` (the command never asks for it) |
| `TypeWriter.Remove` | Assets/Scripts/1Effect/Effect_UI/Effect_TypeWriter.cs:76 | `Remove(start)` yields the first `start` UTF-16 code units, and fails exactly when `start` is not a position of the string |
| `TypeWriter.PrintStart` | Assets/Scripts/1Effect/Effect_UI/Effect_TypeWriter.cs:49-60 | index 0, the new source, empty display, and a pending `TextAnimator`; when `m_OnStarPrint` is false every earlier pending invocation is cancelled first |
| `TypeWriter.TextAnimatorStep` | Assets/Scripts/1Effect/Effect_UI/Effect_TypeWriter.cs:72-87 | a step raises the index by exactly one and succeeds exactly while the old index is inside the source; below the end it shows `s[..k-1]` and schedules another step; at the end it shows all of `s` and schedules `PrintFinished`; when `Remove` throws, the raised index stays and the display and queue are untouched |
| `TypeWriter.Tick` | Assets/Scripts/1Function/Function_Common/Common_DelayToInvoke.cs:54-58 | runs the earliest pending invocation (a `TextAnimator` step or `PrintFinished` on the rest of the queue), keeping every later one in order; an invocation that throws is dropped on its own and leaves the rest of the queue exactly as it was; with nothing pending nothing changes |
| `TypeWriter.PrintFinishedStep` | Assets/Scripts/1Effect/Effect_UI/Effect_TypeWriter.cs:61-71 | every registered callback is invoked once, in list order, after those already fired; a null list invokes nothing |
| `TypeWriter.Animates` | Assets/Scripts/1Effect/Effect_UI/Effect_TypeWriter.cs:72-87 | from a fresh start on a non-empty `s`, tick `k` leaves index `k` and shows `s[..k-1]` with a step pending, until tick `|s|` shows `s` with `PrintFinished` pending: exactly `|s|` steps run before the finish is scheduled |
| `TypeWriter.Finishes` | Assets/Scripts/1Effect/Effect_UI/Effect_TypeWriter.cs:61-87 | one tick later all callbacks have fired in order, `s` is displayed, nothing is pending and nothing has thrown |
| `TypeWriter.EmptySourceFaults` | Assets/Scripts/1Effect/Effect_UI/Effect_TypeWriter.cs:75-76 | on the empty string the first step throws, leaving index 1 and nothing pending, so `PrintFinished` is never scheduled |
| `TypeWriter.TickKeepsPrefix` | Assets/Scripts/1Effect/Effect_UI/Effect_TypeWriter.cs:61-87 | every tick keeps the source and keeps the display a prefix of it, whichever action runs and whether or not it throws |
| `TypeWriter.RunKeepsPrefix` | Assets/Scripts/1Effect/Effect_UI/Effect_TypeWriter.cs:49-87 | from any state whose display is a prefix of its source (as `PrintStart` leaves it, `TypeWriter.PrintStartPrefix`), every number of ticks keeps it so, across faults and interleaved chains |
| `TypeWriter.SurrogatePairSteps` | Assets/Scripts/1Effect/Effect_UI/Effect_TypeWriter.cs:75-77 | "a😀b" is four code units, so it runs four steps, and the third displays `a` followed by a lone high surrogate |
| `TypeWriter.DisplayedIsPrefix` | Assets/Scripts/1Effect/Effect_UI/Effect_TypeWriter.cs:76-79 | the display is always a prefix of the source: one character shorter than the index before the end, the whole source at the end (a fact about `Displayed`; `TypeWriter.RunKeepsPrefix` states it for the machine) |

## Findings

| source | as written | input that shows it | evidently intended | confidence | as-written member | corrected member |
|---|---|---|---|---|---|---|
| Assets/Editor/QuickEdit.cs:85-90 | each paste round reads the k-th copied object live, after earlier rounds may already have overwritten it as a target | copy {A, B} (sibling 0, 1), select {B, C} (sibling 1, 2), paste: B takes A's values, then C reads the overwritten B and also takes A's position | C takes the position B had before the paste (the k-th target gets the k-th copied object's values) | medium, not executed | `QuickEdit.PasteTransformAsWritten` (shown by `QuickEdit.PasteAliasCounterexample`) | `QuickEdit.PasteTransform` (reads all copied values before writing; promise proved as its postcondition) |

## Left out

- `AnchorsToCorners`, `ChangeCenter`/`DoChangeCenter` and `CreateBoxCollider` are not modelled. They are floating-point vector and quaternion arithmetic over engine rect transforms and renderer bounds (`Bounds.Encapsulate`).
- The commented-out `CombineMesh` is dead code on the mesh API.
- `RegisterUndo` and all `Undo.*` calls are left out: undo recording is an editor host facility with no effect on the modelled state.
- `Debug.Log` messages are modelled only as `QuickEdit.Notice` values, without their text.
- `TextEditor` clipboard I/O is left out. The clipboard is modelled only as the returned string.
- `Clipboard.ItemText`: float-to-text conversion (`float.ToString()`, culture-dependent) is the parameter `fmt`, not modelled. Floats are opaque 32-bit patterns that are only copied and printed.
- The order of `Selection.transforms` is engine-defined. It is an input of the model.
- Setting `Selection.activeTransform` is modelled as making that object the only selected one.
- `QuickEdit.PasteTransform`: Unity stores rotation as a quaternion. Writing `localEulerAngles` and reading it back may give a different but equivalent triple. The model stores euler angles as given.
- `QuickEdit.Valid`: copied objects destroyed between copy and paste, which would throw in the engine, are excluded. The editor state requires every copied object to still exist.
- `SiblingSort.OrderTransformsBySiblingIndex` requires every sibling index below `int.MaxValue`. With the sentinel `int.MaxValue`, a round resets `minIndex` only when some index in its unsorted tail is below `int.MaxValue`. A round whose whole tail is `int.MaxValue` keeps the `minIndex` of the previous round and swaps with that stale position. So a single such index can already give unsorted output: sibling indices `[0, int.MaxValue]` come out as `[int.MaxValue, 0]`, because the second round swaps with position 0 left over from the first. The first round reads one past the end only when every index is `int.MaxValue`. Engine sibling indices are bounded by a parent's child count.
- `QuickEdit.SiblingOrder` orders by `GetSiblingIndex()` alone, as the code does. Objects under different parents are not put in the Hierarchy window's order, which the header comment of `QuickEdit.cs` (line 7) describes. For example, a root at sibling index 1 sorts after a child at sibling index 0 of another root, although the window lists the root first. The model follows the code and proves nothing about the window order.
- `TypeWriter.Remove` follows the .NET Framework and Mono contract of `string.Remove(int)`: the start index must be below the length. Runtimes that also accept the length itself differ whenever a step runs with the index already at the length. That happens on the empty string, where the first step returns `""` and the second throws. It also happens in interleaved chains with `m_OnStarPrint` set, where such a step displays the whole source and schedules one more step, which then throws. `TypeWriter.EmptySourceFaults` is stated for the stricter contract.
- `Common_DelayToInvoke` is reduced to the pending queue. Coroutines, `WaitForSeconds`, the shared helper object and `Clear` are left out. `Stop` stops every coroutine on the shared object, including ones other components scheduled, and the model sees only this effect's actions.
- Durations (`m_strIntervalTime`, `m_delayOnFinishTime`, `SetIntervalTime`) are not modelled. When several invocations are pending, the model runs the earliest scheduled first, where the engine would run the earliest due.
- `TypeWriter.PrintFinishedStep`: callbacks are opaque ids. The model assumes a callback does not throw, does not call back into the effect and does not change the callback list. In the source a throwing callback skips the callbacks after it, a callback that changes `m_onFinished` makes the `foreach` throw, and a callback that calls `PrintStart` leaves a `TextAnimator` pending. `TypeWriter.Finishes` (every callback fired once, in order, nothing pending) holds only under that assumption.
- `TypeWriter.Animates` covers only a fresh start with nothing else pending. With `m_OnStarPrint` set, `PrintStart` keeps earlier pending invocations (stated in its contract), and interleaved animation chains are not analysed.
- `Effect_TypeWriter.Start`, which reads the `Text` component's initial text, is left out. It only supplies the argument of `PrintStart`.

=== FILE: clipboard.dfy ===
/**
 * The C# snippet that "copy position/rotation/scale to clipboard" produces:
 * `Vector3 position = new Vector3(1f, 2f, 3f);` for one object and
 * `Vector3[] positions = new Vector3[] { new Vector3(...), ... };` for several.
 * Float-to-text conversion is the caller-supplied `fmt`.
 */
module Clipboard {
  import opened Transforms

  /** Which local vector of a transform is copied. */
  datatype InfoType = Position | Rotation | Scale

  /** The enum constant's identifier, as `ToString()` spells it. */
  function TypeName(t: InfoType): string
  {
    match t
    case Position => "Position"
    case Rotation => "Rotation"
    case Scale => "Scale"
  }

  /** `char.ToLower` restricted to ASCII: upper-case letters map to lower case. */
  function LowerChar(c: char): char
  {
    if 'A' <= c <= 'Z' then (c as int - 'A' as int + 'a' as int) as char else c
  }

  function ToLower(s: string): (r: string)
    ensures |r| == |s|
    ensures forall k :: 0 <= k < |s| ==> r[k] == LowerChar(s[k])
  {
    if s == [] then [] else [LowerChar(s[0])] + ToLower(s[1..])
  }

  /** The variable name in the snippet: the enum name lower-cased. */
  function VarName(t: InfoType): (r: string)
    ensures r == match t
                 case Position => "position"
                 case Rotation => "rotation"
                 case Scale => "scale"
  {
    LowerNames();
    ToLower(TypeName(t))
  }

  lemma LowerNames()
    ensures ToLower("Position") == "position"
    ensures ToLower("Rotation") == "rotation"
    ensures ToLower("Scale") == "scale"
  {
    LowerWord("Position", "position");
    LowerWord("Rotation", "rotation");
    LowerWord("Scale", "scale");
  }

  /** A word lowers to `lower` when it agrees with it character by character. */
  lemma LowerWord(word: string, lower: string)
    requires |word| == |lower|
    requires forall k :: 0 <= k < |word| ==> LowerChar(word[k]) == lower[k]
    ensures ToLower(word) == lower
  {
  }

  /** The vector of a transform that `t` selects. */
  function Pick(t: InfoType, tf: Transform): Vec3
  {
    match t
    case Position => tf.localPosition
    case Rotation => tf.localEulerAngles
    case Scale => tf.localScale
  }

  /** One `new Vector3(xf, yf, zf)` constructor expression. */
  function ItemText(v: Vec3, fmt: Float -> string): string
  {
    "new Vector3(" + fmt(v.x) + "f, " + fmt(v.y) + "f, " + fmt(v.z) + "f)"
  }

  function Items(vs: seq<Vec3>, fmt: Float -> string): (r: seq<string>)
    ensures |r| == |vs|
    ensures forall k :: 0 <= k < |vs| ==> r[k] == ItemText(vs[k], fmt)
  {
    seq(|vs|, k requires 0 <= k < |vs| => ItemText(vs[k], fmt))
  }

  /** The items separated by `sep`, with no separator before the first or after the last. */
  function Join(xs: seq<string>, sep: string): string
  {
    if |xs| == 0 then ""
    else if |xs| == 1 then xs[0]
    else xs[0] + sep + Join(xs[1..], sep)
  }

  lemma {:induction false} JoinSnoc(xs: seq<string>, x: string, sep: string)
    requires |xs| > 0
    ensures Join(xs + [x], sep) == Join(xs, sep) + sep + x
    decreases |xs|
  {
    if |xs| == 1 {
      assert (xs + [x])[1..] == [x];
    } else {
      assert (xs + [x])[1..] == xs[1..] + [x];
      JoinSnoc(xs[1..], x, sep);
    }
  }

  /** Everything before the first item. */
  function Header(n: nat, name: string): string
  {
    if n == 1 then "Vector3 " + name + " = " else "Vector3[] " + name + "s = new Vector3[] { "
  }

  /** Everything after the last item. */
  function Footer(n: nat): string
  {
    if n > 1 then " };" else ";"
  }

  /** The separator between items. */
  const Sep: string := ", "

  /** The closed form of the snippet: header, joined items, footer. */
  function ClipboardText(vs: seq<Vec3>, t: InfoType, fmt: Float -> string): string
  {
    Header(|vs|, VarName(t)) + Join(Items(vs, fmt), Sep) + Footer(|vs|)
  }

  /**
   * The text built the way the editor builds it: header, then each item
   * followed by `", "` unless it is the last, then the footer.
   */
  method CopyVec3ToClipboard(v3: seq<Vec3>, t: InfoType, fmt: Float -> string) returns (content: string)
    ensures content == ClipboardText(v3, t, fmt)
  {
    var varName := VarName(t);
    var items := Items(v3, fmt);
    var head := Header(|v3|, varName);
    content := head;
    var i := 0;
    while i < |v3|
      invariant 0 <= i <= |v3|
      invariant content == head + Join(items[..i], Sep) + Pending(i, |v3|)
    {
      AppendItem(head, items, i);
      content := content + ItemText(v3[i], fmt);
      if i != |v3| - 1 {
        content := content + Sep;
      }
      i := i + 1;
    }
    assert items[..|v3|] == items;
    content := content + Footer(|v3|);
  }

  // The small lemmas below (`Assoc` to `SingleItem`) each state one step of
  // string concatenation on its own, which keeps the proofs of the snippet
  // shapes stable across solver seeds.

  lemma Assoc(a: string, b: string, c: string)
    ensures (a + b) + c == a + (b + c)
  {
  }

  /** The separator owed after item `i - 1` when the loop is at item `i`. */
  function Pending(i: int, n: int): string
  {
    if 0 < i < n then Sep else ""
  }

  /** One loop round: appending item `i` and, unless it is the last, a separator. */
  lemma AppendItem(head: string, items: seq<string>, i: nat)
    requires i < |items|
    ensures head + Join(items[..i], Sep) + Pending(i, |items|) + items[i] + (if i != |items| - 1 then Sep else "")
         == head + Join(items[..i + 1], Sep) + Pending(i + 1, |items|)
  {
    assert items[..i + 1] == items[..i] + [items[i]];
    if i > 0 {
      JoinSnoc(items[..i], items[i], Sep);
      Assoc(head, Join(items[..i], Sep), Sep);
      Assoc(head, Join(items[..i], Sep) + Sep, items[i]);
    } else {
      assert items[..1] == [items[0]];
    }
  }

  /** A single vector becomes one `Vector3` declaration. */
  lemma SingleVectorText(v: Vec3, t: InfoType, fmt: Float -> string)
    ensures ClipboardText([v], t, fmt)
         == "Vector3 " + VarName(t) + " = new Vector3(" + fmt(v.x) + "f, " + fmt(v.y) + "f, " + fmt(v.z) + "f);"
  {
    var name := VarName(t);
    var body := fmt(v.x) + "f, " + fmt(v.y) + "f, " + fmt(v.z);
    SingleItem(v, t, fmt);
    ItemShape(v, fmt);
    MergeLiterals("Vector3 " + name, body);
    Assoc3("Vector3 " + name + " = new Vector3(", fmt(v.x), "f, ", fmt(v.y), "f, ", fmt(v.z), "f);");
  }

  lemma SingleItem(v: Vec3, t: InfoType, fmt: Float -> string)
    ensures ClipboardText([v], t, fmt) == "Vector3 " + VarName(t) + " = " + ItemText(v, fmt) + ";"
  {
    assert Items([v], fmt) == [ItemText(v, fmt)];
  }

  lemma ItemShape(v: Vec3, fmt: Float -> string)
    ensures ItemText(v, fmt) == "new Vector3(" + (fmt(v.x) + "f, " + fmt(v.y) + "f, " + fmt(v.z)) + "f)"
  {
    Assoc3("new Vector3(", fmt(v.x), "f, ", fmt(v.y), "f, ", fmt(v.z), "f)");
  }

  lemma MergeLiterals(p: string, body: string)
    ensures p + " = " + ("new Vector3(" + body + "f)") + ";" == p + " = new Vector3(" + body + "f);"
  {
    Regroup(p, " = ", "new Vector3(", body, "f)", ";");
    assert " = " + "new Vector3(" == " = new Vector3(";
    assert "f)" + ";" == "f);";
  }

  lemma Regroup(p: string, a: string, b: string, body: string, c: string, d: string)
    ensures p + a + (b + body + c) + d == p + (a + b) + body + (c + d)
  {
  }

  /** Regrouping a chain of seven concatenations around its five middle parts. */
  lemma Assoc3(a: string, b: string, c: string, d: string, e: string, f: string, g: string)
    ensures a + b + c + d + e + f + g == a + (b + c + d + e + f) + g
  {
  }

  /** Several vectors become a `Vector3[]` initialiser: the items, separated
      by `", "`, between `{ ` and ` };`. */
  lemma {:induction false} ArrayText(vs: seq<Vec3>, t: InfoType, fmt: Float -> string)
    requires |vs| > 1
    ensures ClipboardText(vs, t, fmt)
         == "Vector3[] " + VarName(t) + "s = new Vector3[] { "
            + (ItemText(vs[0], fmt) + Sep + Join(Items(vs[1..], fmt), Sep)) + " };"
    ensures ClipboardText(vs, t, fmt)
         == "Vector3[] " + VarName(t) + "s = new Vector3[] { "
            + (Join(Items(vs[..|vs| - 1], fmt), Sep) + Sep + ItemText(vs[|vs| - 1], fmt)) + " };"
  {
    var items := Items(vs, fmt);
    assert items[1..] == Items(vs[1..], fmt);
    assert Join(items, Sep) == items[0] + Sep + Join(items[1..], Sep);
    var init := Items(vs[..|vs| - 1], fmt);
    assert items == init + [ItemText(vs[|vs| - 1], fmt)];
    JoinSnoc(init, ItemText(vs[|vs| - 1], fmt), Sep);
  }

  /** With no vectors at all the text is still produced, as a `Vector3[]`
      header closed by a bare `;`: the editor never asks for it, because
      it refuses an empty selection first. */
  lemma EmptyText(t: InfoType, fmt: Float -> string)
    ensures ClipboardText([], t, fmt) == "Vector3[] " + VarName(t) + "s = new Vector3[] { " + ";"
  {
  }
}

=== FILE: common.dfy ===
/** Small failure-carrying datatypes shared by the editor and effect models. */
module Common {

  /** A value that may be absent, standing in for a C# null reference. */
  datatype Option<+T> = None | Some(value: T)

  /** Either a value, or the reason an operation stopped early. */
  datatype Result<+T, +E> = Ok(value: T) | Err(error: E)

  /** No element occurs twice. */
  predicate Distinct<T(==)>(s: seq<T>)
  {
    forall i, j :: 0 <= i < j < |s| ==> s[i] != s[j]
  }

  /** In a sequence without repeats every value occurs at most once. */
  lemma {:induction false} DistinctCount<T>(s: seq<T>, x: T)
    requires Distinct(s)
    ensures multiset(s)[x] <= 1
    decreases |s|
  {
    if s != [] {
      assert s == [s[0]] + s[1..];
      DistinctCount(s[1..], x);
      if s[0] == x {
        assert x !in s[1..];
      }
    }
  }

  /** A value at two positions occurs at least twice. */
  lemma RepeatCount<T>(s: seq<T>, a: int, b: int)
    requires 0 <= a < b < |s| && s[a] == s[b]
    ensures multiset(s)[s[a]] >= 2
  {
    assert s == s[..b] + s[b..];
    assert s[a] in s[..b];
    assert s[b] in s[b..];
  }

  /** Rearranging a sequence without repeats leaves it without repeats. */
  lemma DistinctPermutation<T>(a: seq<T>, b: seq<T>)
    requires multiset(a) == multiset(b) && Distinct(a)
    ensures Distinct(b)
  {
    forall i, j | 0 <= i < j < |b|
      ensures b[i] != b[j]
    {
      if b[i] == b[j] {
        RepeatCount(b, i, j);
        DistinctCount(a, b[i]);
      }
    }
  }
}

=== FILE: quick_edit.dfy ===
/**
 * The QuickEdit editor commands over an abstract scene: copy and paste of
 * local transform values, show/hide of a selection, moving the selection to
 * the parent, and copying vectors to the clipboard as C# source.
 *
 * Each menu command is a function from the editor state to a `Reply`: the
 * next state, and the console notice the command logged when it refused.
 */
module QuickEdit {
  import opened Common
  import opened Transforms
  import opened SiblingSort
  import opened Clipboard

  /** The editor selection: the active object and all selected objects. */
  datatype Selection = Selection(active: Option<Id>, transforms: seq<Id>)

  /** The static copy state: `isCopy` together with `cpTransforms`. The buffer
      keeps object identities, so a paste reads the copied objects' values as
      they are at paste time. */
  datatype CopyBuffer = NotCopied | Copied(transforms: seq<Id>)

  datatype Editor = Editor(scene: Scene, selection: Selection, buffer: CopyBuffer)

  /** The messages a command logs when it refuses to act. */
  datatype Notice =
    | CopyFirst          // paste before any copy
    | CountMismatch      // paste into a selection of another size than the copy
    | SelectAnObject     // select-parent without an active object
    | NoParent           // select-parent on a root object
    | SelectAtLeastOne   // show/hide with nothing selected
    | SelectObjects      // copy-to-clipboard with nothing selected

  datatype Reply = Reply(editor: Editor, notice: Option<Notice>)

  /** Everything the editor refers to exists; selections hold no repeats. */
  predicate Valid(e: Editor)
  {
    && WellFormed(e.scene)
    && ValidSelection(e.scene, e.selection.transforms)
    && (e.selection.active.Some? ==> e.selection.active.value in e.scene)
    && (e.buffer.Copied? ==> ValidSelection(e.scene, e.buffer.transforms))
  }

  // ---------------------------------------------------------------------
  // Sibling-index order of a selection
  // ---------------------------------------------------------------------

  /** Sibling indices never decrease along `ids`. */
  predicate InSiblingOrder(scene: Scene, ids: seq<Id>)
  {
    forall a, b :: 0 <= a < b < |ids| && ids[a] in scene && ids[b] in scene ==>
      scene[ids[a]].sibling <= scene[ids[b]].sibling
  }

  lemma RecordsDistinct(scene: Scene, ids: seq<Id>)
    requires WellFormed(scene) && ValidSelection(scene, ids)
    ensures Distinct(Records(scene, ids))
  {
    var recs := Records(scene, ids);
    forall a, b | 0 <= a < b < |recs|
      ensures recs[a] != recs[b]
    {
      assert recs[a].id == ids[a] && recs[b].id == ids[b];
    }
  }

  /** The sorted records of a selection are records of the scene, without
      repeats, and cover every selected object. */
  lemma SortedRecords(scene: Scene, ids: seq<Id>)
    requires WellFormed(scene) && ValidSelection(scene, ids)
    ensures FromScene(scene, SelectionSort(Records(scene, ids)))
    ensures Distinct(SelectionSort(Records(scene, ids)))
    ensures forall x :: x in ids ==> x in Ids(SelectionSort(Records(scene, ids)))
  {
    var recs := Records(scene, ids);
    var sorted := SelectionSort(recs);
    SelectionSortCorrect(recs);
    forall k | 0 <= k < |sorted|
      ensures sorted[k].id in scene && scene[sorted[k].id] == sorted[k]
    {
      assert sorted[k] in multiset(recs);
    }
    RecordsDistinct(scene, ids);
    DistinctPermutation(recs, sorted);
    forall x | x in ids
      ensures x in Ids(sorted)
    {
      var j :| 0 <= j < |ids| && ids[j] == x;
      assert recs[j] in multiset(sorted);
      var k :| 0 <= k < |sorted| && sorted[k] == recs[j];
      assert Ids(sorted)[k] == x;
    }
  }

  /** The identities of records taken from the scene have no repeats when the
      records have none. */
  lemma IdsDistinct(scene: Scene, ts: seq<Transform>)
    requires FromScene(scene, ts) && Distinct(ts)
    ensures Distinct(Ids(ts))
  {
    forall a, b | 0 <= a < b < |ts|
      ensures ts[a].id != ts[b].id
    {
      assert ts[a] != ts[b];
    }
  }

  /** The selection after `OrderTransformsBySiblingIndex`: the same objects,
      rearranged into sibling-index order by the editor's selection sort. */
  function SiblingOrder(scene: Scene, ids: seq<Id>): (r: seq<Id>)
    requires WellFormed(scene) && ValidSelection(scene, ids)
    ensures |r| == |ids|
    ensures ValidSelection(scene, r)
    ensures forall x :: x in r <==> x in ids
    ensures InSiblingOrder(scene, r)
    ensures Records(scene, r) == SelectionSort(Records(scene, ids))
  {
    var sorted := SelectionSort(Records(scene, ids));
    SelectionSortCorrect(Records(scene, ids));
    SortedRecords(scene, ids);
    IdsDistinct(scene, sorted);
    var r := Ids(sorted);
    assert forall x :: x in r ==> x in ids by {
      forall x | x in r
        ensures x in ids
      {
        var k :| 0 <= k < |r| && r[k] == x;
        assert sorted[k] in multiset(Records(scene, ids));
      }
    }
    assert Records(scene, r) == sorted;
    r
  }

  // ---------------------------------------------------------------------
  // CopyTransform / PasteTranform
  // ---------------------------------------------------------------------

  /** Remembers the current selection as the copy source. */
  function CopyTransform(e: Editor): (r: Reply)
    requires Valid(e)
    ensures Valid(r.editor) && r.notice == None
    ensures r.editor.buffer.Copied? && r.editor.buffer.transforms == e.selection.transforms
    ensures r.editor.scene == e.scene && r.editor.selection == e.selection
  {
    Reply(e.(buffer := Copied(e.selection.transforms)), None)
  }

  /** `dst` with the local position, euler angles and scale of `src`. */
  function CopyLocal(dst: Transform, src: Transform): Transform
  {
    dst.(localPosition := src.localPosition,
         localEulerAngles := src.localEulerAngles,
         localScale := src.localScale)
  }

  /** Only the three local vectors may differ. */
  predicate SameButLocal(a: Transform, b: Transform)
  {
    a.id == b.id && a.sibling == b.sibling && a.parent == b.parent && a.active == b.active
  }

  /** The promised outcome of a paste: the k-th target takes the local values
      that the k-th copied object had before the paste; nothing else changes. */
  predicate Pasted(before: Scene, after: Scene, targets: seq<Id>, copies: seq<Id>)
    requires |targets| == |copies| && AllIn(before, targets) && AllIn(before, copies)
  {
    && after.Keys == before.Keys
    && (forall k :: 0 <= k < |targets| ==> after[targets[k]] == CopyLocal(before[targets[k]], before[copies[k]]))
    && (forall id :: id in before && id !in targets ==> after[id] == before[id])
  }

  /**
   * The paste loop as written: round `k` reads the k-th copied object from
   * the scene as the earlier rounds have left it, then writes the k-th
   * target.
   */
  function PasteInOrder(scene: Scene, targets: seq<Id>, copies: seq<Id>, i: nat): (r: Scene)
    requires |targets| == |copies| && i <= |targets|
    requires AllIn(scene, targets) && AllIn(scene, copies)
    ensures r.Keys == scene.Keys
    ensures forall id :: id in scene ==> SameButLocal(scene[id], r[id])
    ensures forall id :: id in scene && id !in targets[i..] ==> r[id] == scene[id]
    decreases |targets| - i
  {
    if i == |targets| then scene
    else
      var t := targets[i];
      assert targets[i..] == [t] + targets[i + 1..];
      PasteInOrder(scene[t := CopyLocal(scene[t], scene[copies[i]])], targets, copies, i + 1)
  }

  /** The paste loop writing values read before the loop started. */
  function PasteValues(scene: Scene, targets: seq<Id>, values: seq<Transform>, i: nat): (r: Scene)
    requires |targets| == |values| && i <= |targets|
    requires AllIn(scene, targets)
    ensures r.Keys == scene.Keys
    ensures forall id :: id in scene ==> SameButLocal(scene[id], r[id])
    decreases |targets| - i
  {
    if i == |targets| then scene
    else
      var t := targets[i];
      PasteValues(scene[t := CopyLocal(scene[t], values[i])], targets, values, i + 1)
  }

  lemma {:induction false} PasteValuesWrites(scene: Scene, targets: seq<Id>, values: seq<Transform>, i: nat)
    requires |targets| == |values| && i <= |targets|
    requires AllIn(scene, targets) && Distinct(targets)
    ensures forall k :: i <= k < |targets| ==>
      PasteValues(scene, targets, values, i)[targets[k]] == CopyLocal(scene[targets[k]], values[k])
    ensures forall id :: id in scene && id !in targets[i..] ==>
      PasteValues(scene, targets, values, i)[id] == scene[id]
    decreases |targets| - i
  {
    if i < |targets| {
      var t := targets[i];
      var next := scene[t := CopyLocal(scene[t], values[i])];
      PasteValuesWrites(next, targets, values, i + 1);
      forall k | i < k < |targets|
        ensures next[targets[k]] == scene[targets[k]]
      {
        assert targets[k] != t;
      }
      forall id | id in scene && id !in targets[i..]
        ensures id !in targets[i + 1..] && id != t
      {
        assert targets[i..] == [t] + targets[i + 1..];
      }
      assert targets[i] !in targets[i + 1..];
    }
  }

  /** The corrected paste: all copied values are read first, then written. */
  function PasteSnapshot(scene: Scene, targets: seq<Id>, copies: seq<Id>): (r: Scene)
    requires |targets| == |copies| && AllIn(scene, targets) && AllIn(scene, copies)
    requires Distinct(targets)
    ensures Pasted(scene, r, targets, copies)
  {
    var r := PasteValues(scene, targets, Records(scene, copies), 0);
    PasteValuesWrites(scene, targets, Records(scene, copies), 0);
    assert targets[0..] == targets;
    r
  }

  /** No target is written before a copied object that is read later. */
  predicate NoAlias(targets: seq<Id>, copies: seq<Id>)
  {
    forall a, b :: 0 <= a < b < |targets| && b < |copies| ==> targets[a] != copies[b]
  }

  lemma {:induction false} InOrderAgreesWithoutAlias(scene: Scene, targets: seq<Id>, copies: seq<Id>, values: seq<Transform>, i: nat)
    requires |targets| == |copies| == |values| && i <= |targets|
    requires AllIn(scene, targets) && AllIn(scene, copies)
    requires NoAlias(targets, copies)
    requires forall k :: i <= k < |copies| ==> scene[copies[k]] == values[k]
    ensures PasteInOrder(scene, targets, copies, i) == PasteValues(scene, targets, values, i)
    decreases |targets| - i
  {
    if i < |targets| {
      var t := targets[i];
      var next := scene[t := CopyLocal(scene[t], scene[copies[i]])];
      forall k | i + 1 <= k < |copies|
        ensures next[copies[k]] == values[k]
      {
        assert copies[k] != t;
      }
      InOrderAgreesWithoutAlias(next, targets, copies, values, i + 1);
    }
  }

  /** When no earlier target is read later as a copied object, the loop as
      written keeps the promise. */
  lemma InOrderPastesWithoutAlias(scene: Scene, targets: seq<Id>, copies: seq<Id>)
    requires |targets| == |copies| && AllIn(scene, targets) && AllIn(scene, copies)
    requires Distinct(targets) && NoAlias(targets, copies)
    ensures PasteInOrder(scene, targets, copies, 0) == PasteSnapshot(scene, targets, copies)
    ensures Pasted(scene, PasteInOrder(scene, targets, copies, 0), targets, copies)
  {
    InOrderAgreesWithoutAlias(scene, targets, copies, Records(scene, copies), 0);
  }

  /** The guards of the paste command, and the two sibling-index orders it pairs. */
  function PastePlan(e: Editor): (r: Result<(seq<Id>, seq<Id>), Notice>)
    requires Valid(e)
    ensures e.buffer.NotCopied? ==> r == Err(CopyFirst)
    ensures e.buffer.Copied? && |e.selection.transforms| != |e.buffer.transforms| ==> r == Err(CountMismatch)
    ensures r.Ok? <==> e.buffer.Copied? && |e.selection.transforms| == |e.buffer.transforms|
    ensures r.Ok? ==> && r.value.0 == SiblingOrder(e.scene, e.selection.transforms)
                      && r.value.1 == SiblingOrder(e.scene, e.buffer.transforms)
  {
    match e.buffer
    case NotCopied => Err(CopyFirst)
    case Copied(copied) =>
      var targets := e.selection.transforms;
      if |targets| != |copied| then Err(CountMismatch)
      else Ok((SiblingOrder(e.scene, targets), SiblingOrder(e.scene, copied)))
  }

  /**
   * Paste: refuses without a prior copy or when the selection and the copy
   * differ in size; otherwise pairs both in sibling-index order, gives the k-th
   * target the k-th copied object's local values, and keeps the copied
   * objects in their sorted order for the next paste.
   */
  function PasteTransform(e: Editor): (r: Reply)
    requires Valid(e)
    ensures Valid(r.editor)
    ensures e.buffer.NotCopied? ==> r == Reply(e, Some(CopyFirst))
    ensures e.buffer.Copied? && |e.selection.transforms| != |e.buffer.transforms| ==> r == Reply(e, Some(CountMismatch))
    ensures e.buffer.Copied? && |e.selection.transforms| == |e.buffer.transforms| ==>
      var targets := SiblingOrder(e.scene, e.selection.transforms);
      var copies := SiblingOrder(e.scene, e.buffer.transforms);
      && r.notice == None
      && r.editor.selection == e.selection
      && r.editor.buffer == Copied(copies)
      && Pasted(e.scene, r.editor.scene, targets, copies)
  {
    match PastePlan(e)
    case Err(notice) => Reply(e, Some(notice))
    case Ok((targets, copies)) =>
      var scene := PasteSnapshot(e.scene, targets, copies);
      LocalChangesKeepWellFormed(e.scene, scene);
      Reply(Editor(scene, e.selection, Copied(copies)), None)
  }

  /** The paste command with the loop as written. */
  function PasteTransformAsWritten(e: Editor): (r: Reply)
    requires Valid(e)
    ensures Valid(r.editor)
    ensures e.buffer.NotCopied? ==> r == Reply(e, Some(CopyFirst))
    ensures e.buffer.Copied? && |e.selection.transforms| != |e.buffer.transforms| ==> r == Reply(e, Some(CountMismatch))
    ensures e.buffer.Copied? && |e.selection.transforms| == |e.buffer.transforms| ==>
      var targets := SiblingOrder(e.scene, e.selection.transforms);
      var copies := SiblingOrder(e.scene, e.buffer.transforms);
      && r.notice == None
      && r.editor.selection == e.selection
      && r.editor.buffer == Copied(copies)
      && (NoAlias(targets, copies) ==> r == PasteTransform(e))
    ensures r.editor.scene.Keys == e.scene.Keys
    ensures forall id :: id in e.scene && id !in e.selection.transforms ==> r.editor.scene[id] == e.scene[id]
  {
    match PastePlan(e)
    case Err(notice) => Reply(e, Some(notice))
    case Ok((targets, copies)) =>
      var r := PasteInOrderReply(e, targets, copies);
      if NoAlias(targets, copies) then
        InOrderPastesWithoutAlias(e.scene, targets, copies);
        r
      else
        r
  }

  /** The successful paste with the loop as written, on the two sorted sides. */
  function PasteInOrderReply(e: Editor, targets: seq<Id>, copies: seq<Id>): (r: Reply)
    requires Valid(e) && |targets| == |copies|
    requires ValidSelection(e.scene, targets) && ValidSelection(e.scene, copies)
    requires forall x :: x in targets <==> x in e.selection.transforms
    ensures Valid(r.editor) && r.notice == None
    ensures r.editor.selection == e.selection && r.editor.buffer == Copied(copies)
    ensures r.editor.scene.Keys == e.scene.Keys
    ensures forall id :: id in e.scene && id !in e.selection.transforms ==> r.editor.scene[id] == e.scene[id]
  {
    var scene := PasteInOrder(e.scene, targets, copies, 0);
    InOrderKeepsOthers(e.scene, e.selection.transforms, targets, copies);
    LocalChangesKeepWellFormed(e.scene, scene);
    Reply(Editor(scene, e.selection, Copied(copies)), None)
  }

  /** The loop as written touches only the selected objects. */
  lemma InOrderKeepsOthers(scene: Scene, selection: seq<Id>, targets: seq<Id>, copies: seq<Id>)
    requires |targets| == |copies| && AllIn(scene, targets) && AllIn(scene, copies)
    requires forall x :: x in targets <==> x in selection
    ensures forall id :: id in scene && id !in selection ==> PasteInOrder(scene, targets, copies, 0)[id] == scene[id]
  {
    assert targets[0..] == targets;
  }

  lemma LocalChangesKeepWellFormed(before: Scene, after: Scene)
    requires WellFormed(before) && after.Keys == before.Keys
    requires forall id :: id in before ==> SameButLocal(before[id], after[id])
    ensures WellFormed(after)
  {
  }

  /** Three root objects A, B, C (ids 0, 1, 2, in sibling-index order) that differ
      only in local position. */
  function AliasScene(): Scene
  {
    var zero := Vec3(0, 0, 0);
    map[0 := Transform(0, 0, None, true, Vec3(1, 0, 0), zero, zero),
        1 := Transform(1, 1, None, true, Vec3(2, 0, 0), zero, zero),
        2 := Transform(2, 2, None, true, Vec3(3, 0, 0), zero, zero)]
  }

  /** A selection already in sibling-index order is left as it is. */
  lemma SiblingOrderOfOrdered(scene: Scene, ids: seq<Id>)
    requires WellFormed(scene) && ValidSelection(scene, ids)
    requires InSiblingOrder(scene, ids)
    ensures SiblingOrder(scene, ids) == ids
  {
    var r := SiblingOrder(scene, ids);
    SelectionSortIdempotent(Records(scene, ids));
    assert Records(scene, r) == Records(scene, ids);
    forall k | 0 <= k < |ids|
      ensures r[k] == ids[k]
    {
      assert Records(scene, r)[k].id == r[k];
    }
  }

  /** The copy {A, B} pending while {B, C} is selected. */
  function AliasEditor(): Editor
  {
    Editor(AliasScene(), Selection(Some(1), [1, 2]), Copied([0, 1]))
  }

  lemma AliasEditorPlan()
    ensures Valid(AliasEditor())
    ensures PastePlan(AliasEditor()) == Ok(([1, 2], [0, 1]))
  {
    var scene := AliasScene();
    assert Valid(AliasEditor());
    SiblingOrderOfOrdered(scene, [1, 2]);
    SiblingOrderOfOrdered(scene, [0, 1]);
  }

  lemma AliasInOrder()
    ensures var scene := AliasScene();
            PasteInOrder(scene, [1, 2], [0, 1], 0)[2].localPosition == Vec3(1, 0, 0)
  {
    var scene := AliasScene();
    var once := scene[1 := CopyLocal(scene[1], scene[0])];
    var twice := once[2 := CopyLocal(once[2], once[1])];
    assert PasteInOrder(scene, [1, 2], [0, 1], 0) == PasteInOrder(once, [1, 2], [0, 1], 1);
    assert PasteInOrder(once, [1, 2], [0, 1], 1) == twice;
  }

  /**
   * Copy {A, B}, then paste into {B, C}. Written in order, B first takes A's
   * values, and C then reads B after that write, so C also ends with A's
   * position; the promised outcome gives C the position B had.
   */
  lemma PasteAliasCounterexample()
    ensures Valid(AliasEditor())
    ensures PasteTransformAsWritten(AliasEditor()).editor.scene[2].localPosition == Vec3(1, 0, 0)
    ensures PasteTransform(AliasEditor()).editor.scene[2].localPosition == Vec3(2, 0, 0)
  {
    AliasEditorPlan();
    AliasInOrder();
  }

  /** Pasting straight after copying the same selection changes nothing:
      each object is paired with itself. */
  lemma CopyThenPasteRestores(e: Editor)
    requires Valid(e)
    ensures PasteTransform(CopyTransform(e).editor).editor.scene == e.scene
    ensures PasteTransformAsWritten(CopyTransform(e).editor).editor.scene == e.scene
  {
    var c := CopyTransform(e).editor;
    var order := SiblingOrder(e.scene, e.selection.transforms);
    SelfPasteRestores(e.scene, PasteTransform(c).editor.scene, order);
    assert NoAlias(order, order);
  }

  /** Pairing every object with itself writes back the values it already has. */
  lemma SelfPasteRestores(before: Scene, after: Scene, ids: seq<Id>)
    requires AllIn(before, ids) && Pasted(before, after, ids, ids)
    ensures after == before
  {
    forall id | id in before
      ensures after[id] == before[id]
    {
      if id in ids {
        var k :| 0 <= k < |ids| && ids[k] == id;
      }
    }
  }

  // ---------------------------------------------------------------------
  // ActiveSelections
  // ---------------------------------------------------------------------

  /** Every selected object has the active state of the first one. */
  predicate AllSameActive(scene: Scene, ids: seq<Id>)
    requires AllIn(scene, ids)
  {
    forall k :: 0 <= k < |ids| ==> scene[ids[k]].active == scene[ids[0]].active
  }

  /** `IsAllObjectsActiveSame`: compares every later object with the first,
      stopping at the first difference. */
  method IsAllObjectsActiveSame(scene: Scene, targets: seq<Id>) returns (same: bool)
    requires AllIn(scene, targets)
    ensures same <==> AllSameActive(scene, targets)
  {
    var i := 1;
    while i < |targets|
      invariant 1 <= i
      invariant forall k :: 0 <= k < i && k < |targets| ==> scene[targets[k]].active == scene[targets[0]].active
    {
      if scene[targets[i]].active != scene[targets[0]].active {
        return false;
      }
      i := i + 1;
    }
    return true;
  }

  /** `ChangeObjectsState`: sets the active state of each target in turn. */
  function ChangeObjectsState(scene: Scene, targets: seq<Id>, state: bool): (r: Scene)
    requires AllIn(scene, targets)
    ensures r.Keys == scene.Keys
    ensures forall id :: id in scene && id in targets ==> r[id] == scene[id].(active := state)
    ensures forall id :: id in scene && id !in targets ==> r[id] == scene[id]
    decreases |targets|
  {
    if targets == [] then scene
    else
      var t := targets[0];
      ChangeObjectsState(scene[t := scene[t].(active := state)], targets[1..], state)
  }

  /** The state a show/hide press gives every selected object: the opposite
      of the common state when all agree, otherwise shown. */
  function ToggleTarget(scene: Scene, ids: seq<Id>): bool
    requires AllIn(scene, ids) && |ids| > 0
  {
    if AllSameActive(scene, ids) then !scene[ids[0]].active else true
  }

  /**
   * Show/hide: refuses an empty selection; otherwise every selected object
   * ends in the state `ToggleTarget` picks, so all of them agree, and
   * nothing else in the scene changes.
   */
  function ActiveSelections(e: Editor): (r: Reply)
    requires Valid(e)
    ensures Valid(r.editor)
    ensures |e.selection.transforms| == 0 ==> r == Reply(e, Some(SelectAtLeastOne))
    ensures |e.selection.transforms| > 0 ==>
      var ids := e.selection.transforms;
      && r.notice == None
      && r.editor.selection == e.selection && r.editor.buffer == e.buffer
      && r.editor.scene.Keys == e.scene.Keys
      && AllSameActive(r.editor.scene, ids)
      && (AllSameActive(e.scene, ids) ==> r.editor.scene[ids[0]].active == !e.scene[ids[0]].active)
      && (!AllSameActive(e.scene, ids) ==> forall k :: 0 <= k < |ids| ==> r.editor.scene[ids[k]].active)
      && (forall k :: 0 <= k < |ids| ==> r.editor.scene[ids[k]] == e.scene[ids[k]].(active := r.editor.scene[ids[k]].active))
      && (forall id :: id in e.scene && id !in ids ==> r.editor.scene[id] == e.scene[id])
  {
    var ids := e.selection.transforms;
    if |ids| == 0 then Reply(e, Some(SelectAtLeastOne))
    else
      var scene := ChangeObjectsState(e.scene, ids, ToggleTarget(e.scene, ids));
      assert WellFormed(scene) by {
        forall id | id in scene
          ensures scene[id].id == id && 0 <= scene[id].sibling < IntMax
          ensures scene[id].parent.Some? ==> scene[id].parent.value in scene
        {
          assert SameButLocalOrActive(e.scene[id], scene[id]);
        }
      }
      Reply(e.(scene := scene), None)
  }

  /** Only the active state and the local vectors may differ. */
  predicate SameButLocalOrActive(a: Transform, b: Transform)
  {
    a.id == b.id && a.sibling == b.sibling && a.parent == b.parent
  }

  /** Pressing show/hide twice on a selection that agreed restores the scene. */
  lemma ActiveSelectionsTwiceRestores(e: Editor)
    requires Valid(e) && |e.selection.transforms| > 0
    requires AllSameActive(e.scene, e.selection.transforms)
    ensures ActiveSelections(ActiveSelections(e).editor).editor == e
  {
    var ids := e.selection.transforms;
    var once := ActiveSelections(e).editor;
    var twice := ActiveSelections(once).editor;
    forall id | id in e.scene
      ensures twice.scene[id] == e.scene[id]
    {
      if id in ids {
        var k :| 0 <= k < |ids| && ids[k] == id;
        assert e.scene[ids[k]].active == e.scene[ids[0]].active;
      }
    }
    assert twice.scene == e.scene;
  }

  /** A mixed selection is first all shown, then all hidden. */
  lemma ActiveSelectionsMixedTwice(e: Editor)
    requires Valid(e) && |e.selection.transforms| > 0
    requires !AllSameActive(e.scene, e.selection.transforms)
    ensures var twice := ActiveSelections(ActiveSelections(e).editor).editor;
            forall k :: 0 <= k < |e.selection.transforms| ==> !twice.scene[e.selection.transforms[k]].active
  {
  }

  // ---------------------------------------------------------------------
  // SelectParent
  // ---------------------------------------------------------------------

  /**
   * Select parent: refuses when nothing is active or the active object is a
   * root; otherwise the parent becomes the only selected object. The scene
   * and the copy buffer never change.
   */
  function SelectParent(e: Editor): (r: Reply)
    requires Valid(e)
    ensures Valid(r.editor)
    ensures r.editor.scene == e.scene && r.editor.buffer == e.buffer
    ensures e.selection.active.None? ==> r == Reply(e, Some(SelectAnObject))
    ensures e.selection.active.Some? && e.scene[e.selection.active.value].parent.None? ==> r == Reply(e, Some(NoParent))
    ensures r.notice == None <==> e.selection.active.Some? && e.scene[e.selection.active.value].parent.Some?
    ensures r.notice == None ==>
      var p := e.scene[e.selection.active.value].parent.value;
      r.editor.selection == Selection(Some(p), [p])
  {
    match e.selection.active
    case None => Reply(e, Some(SelectAnObject))
    case Some(target) =>
      match e.scene[target].parent
      case None => Reply(e, Some(NoParent))
      case Some(p) => Reply(e.(selection := Selection(Some(p), [p])), None)
  }

  // ---------------------------------------------------------------------
  // CopyTransformInfo
  // ---------------------------------------------------------------------

  /** The chosen vector of each object, in the given order. */
  function Vectors(t: InfoType, scene: Scene, ids: seq<Id>): (r: seq<Vec3>)
    requires AllIn(scene, ids)
    ensures |r| == |ids|
    ensures forall k :: 0 <= k < |ids| ==> r[k] == Pick(t, scene[ids[k]])
  {
    seq(|ids|, k requires 0 <= k < |ids| => Pick(t, scene[ids[k]]))
  }

  /**
   * Copy position/rotation/scale to the clipboard: refuses an empty
   * selection; otherwise returns the snippet for the chosen vector of every
   * selected object, in sibling-index order.
   */
  method CopyTransformInfo(e: Editor, t: InfoType, fmt: Float -> string) returns (r: Result<string, Notice>)
    requires Valid(e)
    ensures r.Err? <==> |e.selection.transforms| == 0
    ensures r.Err? ==> r.error == SelectObjects
    ensures r.Ok? ==>
      r.value == ClipboardText(Vectors(t, e.scene, SiblingOrder(e.scene, e.selection.transforms)), t, fmt)
  {
    if |e.selection.transforms| == 0 {
      return Err(SelectObjects);
    }
    var tfs := OrderTransformsBySiblingIndex(Records(e.scene, e.selection.transforms));
    var v3 := seq(|tfs|, k requires 0 <= k < |tfs| => Pick(t, tfs[k]));
    var order := SiblingOrder(e.scene, e.selection.transforms);
    assert v3 == Vectors(t, e.scene, order) by {
      assert Records(e.scene, order) == tfs;
    }
    var content := CopyVec3ToClipboard(v3, t, fmt);
    return Ok(content);
  }
}

=== FILE: sibling_sort.dfy ===
/**
 * Ordering a selection by sibling index: the in-place selection sort
 * `OrderTransformsBySiblingIndex` and its `Swap` helper, with a functional
 * reference definition of the same sort and its properties.
 */
module SiblingSort {
  import opened Transforms

  /** Exchanges the cells `i` and `j` (the `ref` swap of two array cells). */
  function Swap<T>(s: seq<T>, i: nat, j: nat): (r: seq<T>)
    requires i < |s| && j < |s|
    ensures |r| == |s|
    ensures r[i] == s[j] && r[j] == s[i]
    ensures forall k :: 0 <= k < |s| && k != i && k != j ==> r[k] == s[k]
    ensures multiset(r) == multiset(s)
  {
    s[i := s[j]][j := s[i]]
  }

  /** Sibling indices never decrease along the sequence. */
  predicate SortedBySibling(s: seq<Transform>)
  {
    forall a, b :: 0 <= a < b < |s| ==> s[a].sibling <= s[b].sibling
  }

  /** The first `i` cells are in their final places: each has a sibling index no
      greater than any cell after it. */
  predicate SortedPrefix(s: seq<Transform>, i: nat)
  {
    forall a, b :: 0 <= a < b < |s| && a < i ==> s[a].sibling <= s[b].sibling
  }

  /** `m` is the first position in `s[lo..]` holding the least sibling index,
      which is what the strict `<` of the inner loop selects. */
  predicate IsFirstMin(s: seq<Transform>, lo: nat, m: int)
  {
    FirstMinOf(s, lo, |s|, m)
  }

  /** `m` is the first position in `s[lo..hi]` holding its least sibling index. */
  predicate FirstMinOf(s: seq<Transform>, lo: nat, hi: int, m: int)
  {
    && lo <= m < hi <= |s|
    && (forall k :: lo <= k < hi ==> s[m].sibling <= s[k].sibling)
    && (forall k :: lo <= k < m ==> s[m].sibling < s[k].sibling)
  }

  /** The sibling index at position `k`, read without a range obligation. */
  ghost function SiblingAt(s: seq<Transform>, k: int): int
  {
    if 0 <= k < |s| then s[k].sibling else 0
  }

  /** One step of the inner loop: looking at `s[hi]` either keeps the
      current minimum or replaces it by a strictly smaller one. */
  lemma ScanStep(s: seq<Transform>, lo: nat, hi: int, m: int)
    requires FirstMinOf(s, lo, hi, m) && hi < |s|
    ensures s[hi].sibling < s[m].sibling ==> FirstMinOf(s, lo, hi + 1, hi)
    ensures s[m].sibling <= s[hi].sibling ==> FirstMinOf(s, lo, hi + 1, m)
  {
  }

  lemma FirstMinUnique(s: seq<Transform>, lo: nat, m1: int, m2: int)
    requires IsFirstMin(s, lo, m1) && IsFirstMin(s, lo, m2)
    ensures m1 == m2
  {
    assert m1 < m2 ==> SiblingAt(s, m2) < SiblingAt(s, m1);
    assert m2 < m1 ==> SiblingAt(s, m1) < SiblingAt(s, m2);
  }

  /** One round of the sort: the first least cell of `s[i..]` is swapped into place. */
  lemma SortRound(s: seq<Transform>, i: nat, m: int)
    requires i < |s|
    requires IsFirstMin(s, i, m)
    ensures SortFrom(s, i) == SortFrom(Swap(s, i, m), i + 1)
  {
    FirstMinUnique(s, i, m, FirstMinIndex(s, i));
  }

  /** The position the inner loop of the sort picks for round `lo`. */
  function FirstMinIndex(s: seq<Transform>, lo: nat): (m: nat)
    requires lo < |s|
    ensures IsFirstMin(s, lo, m)
    decreases |s| - lo
  {
    if lo == |s| - 1 then lo
    else
      var m := FirstMinIndex(s, lo + 1);
      if s[lo].sibling <= s[m].sibling then lo else m
  }

  /** Rounds `i`, `i+1`, ... of the selection sort: each round swaps the
      first least remaining cell into place. */
  function SortFrom(s: seq<Transform>, i: nat): (r: seq<Transform>)
    requires i <= |s|
    ensures |r| == |s|
    ensures multiset(r) == multiset(s)
    decreases |s| - i
  {
    if i == |s| then s
    else SortFrom(Swap(s, i, FirstMinIndex(s, i)), i + 1)
  }

  /** The reference definition of the whole sort. */
  function SelectionSort(s: seq<Transform>): (r: seq<Transform>)
  {
    SortFrom(s, 0)
  }

  /** A round extends the settled prefix by one cell. */
  lemma RoundExtendsPrefix(s: seq<Transform>, i: nat, m: int)
    requires i < |s|
    requires SortedPrefix(s, i)
    requires IsFirstMin(s, i, m)
    ensures SortedPrefix(Swap(s, i, m), i + 1)
  {
    var s' := Swap(s, i, m);
    forall a, b | 0 <= a < b < |s'| && a < i + 1
      ensures s'[a].sibling <= s'[b].sibling
    {
      // every cell of s' at or after position i comes from s[i..]
      var x := if b == i then m else if b == m then i else b;
      assert s'[b] == s[x];
      if a < i {
        assert s'[a] == s[a];
      } else {
        assert s'[a] == s[m] && i <= x;
      }
    }
  }

  lemma {:induction false} SortFromSorted(s: seq<Transform>, i: nat)
    requires i <= |s|
    requires SortedPrefix(s, i)
    ensures SortedBySibling(SortFrom(s, i))
    decreases |s| - i
  {
    if i < |s| {
      var m := FirstMinIndex(s, i);
      var s' := Swap(s, i, m);
      RoundExtendsPrefix(s, i, m);
      SortFromSorted(s', i + 1);
      assert SortFrom(s, i) == SortFrom(s', i + 1);
      assert SortedBySibling(SortFrom(s', i + 1));
    } else {
      assert SortFrom(s, i) == s;
      assert SortedBySibling(s);
    }
  }

  /** The sort orders its output by sibling index and only permutes. */
  lemma SelectionSortCorrect(s: seq<Transform>)
    ensures SortedBySibling(SelectionSort(s))
    ensures multiset(SelectionSort(s)) == multiset(s)
  {
    SortFromSorted(s, 0);
  }

  lemma {:induction false} SortFromFixesSorted(s: seq<Transform>, i: nat)
    requires i <= |s|
    requires SortedBySibling(s)
    ensures SortFrom(s, i) == s
    decreases |s| - i
  {
    if i < |s| {
      var m := FirstMinIndex(s, i);
      assert m == i;
      assert Swap(s, i, m) == s;
      SortFromFixesSorted(s, i + 1);
    }
  }

  /** Sorting an already ordered sequence changes nothing, so sorting twice
      is sorting once. */
  lemma SelectionSortIdempotent(s: seq<Transform>)
    ensures SortedBySibling(s) ==> SelectionSort(s) == s
    ensures SelectionSort(SelectionSort(s)) == SelectionSort(s)
  {
    if SortedBySibling(s) {
      SortFromFixesSorted(s, 0);
    }
    SelectionSortCorrect(s);
    SortFromFixesSorted(SelectionSort(s), 0);
  }

  /**
   * The inner loop of the sort: scans `r[i..]` with the strict `<` against a
   * running minimum that starts at `int.MaxValue`. The incoming `minIndex`
   * survives only if no sibling index beats the sentinel, which cannot
   * happen once every index is below it.
   */
  method ScanForMinimum(r: seq<Transform>, i: nat, minIndexIn: int) returns (minIndex: int, minSibling: int)
    requires i < |r|
    requires forall k :: 0 <= k < |r| ==> r[k].sibling < IntMax
    ensures IsFirstMin(r, i, minIndex)
    ensures minSibling == r[minIndex].sibling
  {
    minIndex := minIndexIn;
    minSibling := IntMax;
    var j := i;
    while j < |r|
      invariant i <= j <= |r|
      invariant j == i ==> minSibling == IntMax
      invariant j > i ==> FirstMinOf(r, i, j, minIndex) && minSibling == r[minIndex].sibling
    {
      var siblingIndex := r[j].sibling;
      if j > i {
        ScanStep(r, i, j, minIndex);
      }
      if siblingIndex < minSibling {
        minIndex := j;
        minSibling := siblingIndex;
      }
      j := j + 1;
    }
  }

  /**
   * The editor's in-place sort, round by round as written: each round scans
   * the unsorted tail for its first least sibling index and swaps it to the
   * front of the tail. `minIndex` starts at the length and is carried from
   * round to round.
   */
  method OrderTransformsBySiblingIndex(tfs: seq<Transform>) returns (r: seq<Transform>)
    requires forall k :: 0 <= k < |tfs| ==> tfs[k].sibling < IntMax
    ensures r == SelectionSort(tfs)
    ensures SortedBySibling(r)
    ensures multiset(r) == multiset(tfs)
  {
    r := tfs;
    var minIndex: int := |r|;
    var minSibling: int := IntMax;
    var i := 0;
    while i < |r|
      invariant 0 <= i <= |r| == |tfs|
      invariant SortFrom(r, i) == SelectionSort(tfs)
      invariant forall k :: 0 <= k < |r| ==> r[k].sibling < IntMax
    {
      minIndex, minSibling := ScanForMinimum(r, i, minIndex);
      SortRound(r, i, minIndex);
      r := Swap(r, i, minIndex);
      i := i + 1;
    }
    SelectionSortCorrect(tfs);
  }
}

=== FILE: transforms.dfy ===
/**
 * The scene graph as the editor commands see it: every transform is an
 * immutable record, and a scene maps each object's identity to its record.
 */
module Transforms {
  import opened Common

  /** A single-precision float held as its IEEE-754 bit pattern. The commands
      only copy such values and print them; no arithmetic is modelled. */
  type Float = bv32

  datatype Vec3 = Vec3(x: Float, y: Float, z: Float)

  /** Identity of a scene object (the engine's object reference). */
  type Id = nat

  /** `int.MaxValue` of C#, used as the sort's "no minimum yet" sentinel. */
  const IntMax: int := 0x7fff_ffff

  datatype Transform = Transform(
    id: Id,
    sibling: int,             // GetSiblingIndex(): position among the parent's children
    parent: Option<Id>,       // null for a root object
    active: bool,             // gameObject.activeSelf
    localPosition: Vec3,
    localEulerAngles: Vec3,
    localScale: Vec3)

  type Scene = map<Id, Transform>

  /** Every record is stored under its own id, every parent exists, and every
      sibling index is a non-negative C# int below the sentinel. */
  predicate WellFormed(scene: Scene)
  {
    forall id :: id in scene ==>
      && scene[id].id == id
      && (scene[id].parent.Some? ==> scene[id].parent.value in scene)
      && 0 <= scene[id].sibling < IntMax
  }

  /** Every id names an object of the scene. */
  predicate AllIn(scene: Scene, ids: seq<Id>)
  {
    forall k :: 0 <= k < |ids| ==> ids[k] in scene
  }

  /** The ids of a selection (`Selection.transforms`): existing, pairwise distinct objects. */
  predicate ValidSelection(scene: Scene, ids: seq<Id>)
  {
    AllIn(scene, ids) && Distinct(ids)
  }

  /** The records of the selected objects, in selection order. */
  function Records(scene: Scene, ids: seq<Id>): (r: seq<Transform>)
    requires AllIn(scene, ids)
    ensures |r| == |ids|
    ensures forall k :: 0 <= k < |ids| ==> r[k] == scene[ids[k]]
  {
    seq(|ids|, k requires 0 <= k < |ids| => scene[ids[k]])
  }

  /** The identities of a sequence of records. */
  function Ids(ts: seq<Transform>): (r: seq<Id>)
    ensures |r| == |ts|
    ensures forall k :: 0 <= k < |ts| ==> r[k] == ts[k].id
  {
    seq(|ts|, k requires 0 <= k < |ts| => ts[k].id)
  }

  /** Every record is the one the scene holds under its id. */
  predicate FromScene(scene: Scene, ts: seq<Transform>)
  {
    forall k :: 0 <= k < |ts| ==> ts[k].id in scene && scene[ts[k].id] == ts[k]
  }
}

=== FILE: type_writer.dfy ===
/**
 * The typewriter text effect as a step-driven state machine. The delayed
 * invocation helper is abstracted to a queue of pending actions: scheduling
 * appends an action, stopping clears the queue, and the scheduler runs the
 * earliest pending action next. Durations are not modelled.
 */
module TypeWriter {
  import opened Common

  /** A UTF-16 code unit: C# strings, their `Length` and the positions
      `Remove` takes all count these, not Unicode characters. */
  type CodeUnit = bv16

  /** A C# string as its UTF-16 code units. */
  type Text = seq<CodeUnit>

  /** The two methods the effect schedules for later. */
  datatype Action = TextAnimator | PrintFinished

  /** The exception `string.Remove` throws for a start index outside the string. */
  datatype Fault = RemoveOutOfRange

  datatype Writer = Writer(
    onStartPrint: bool,            // m_OnStarPrint
    callbacks: Option<seq<nat>>,   // m_onFinished; None when it is null
    index: nat,                    // m_index
    source: Text,                  // m_strs
    text: Text,                    // the text the UI component displays
    pending: seq<Action>,          // scheduled invocations, earliest first
    fired: seq<nat>)               // finish callbacks invoked so far, in order

  /** `s.Remove(start)`: the first `start` characters; the start index must
      name a position inside the string. */
  function Remove(s: Text, start: nat): (r: Result<Text, Fault>)
    ensures r.Ok? <==> start < |s|
    ensures r.Ok? ==> r.value == s[..start]
  {
    if start < |s| then Ok(s[..start]) else Err(RemoveOutOfRange)
  }

  /**
   * `PrintStart`: unless `m_OnStarPrint` is set, cancels every pending
   * invocation first; then restarts at index 0 with an empty display and
   * schedules the first animation step.
   */
  function PrintStart(w: Writer, s: Text): (r: Writer)
    ensures r.index == 0 && r.source == s && r.text == []
    ensures !w.onStartPrint ==> r.pending == [TextAnimator]
    ensures w.onStartPrint ==> r.pending == w.pending + [TextAnimator]
    ensures r.onStartPrint == w.onStartPrint && r.callbacks == w.callbacks && r.fired == w.fired
  {
    var kept := if w.onStartPrint then w.pending else [];
    w.(index := 0, source := s, text := [], pending := kept + [TextAnimator])
  }

  /** The text on display once the index has reached `k`: everything but the
      last character read so far, except that the whole string is shown when
      the end is reached. */
  function Displayed(s: Text, k: nat): Text
    requires k <= |s|
  {
    if k == |s| then s else if k == 0 then [] else s[..k - 1]
  }

  /**
   * One invocation's outcome: the writer it leaves behind, and the exception
   * it threw, if any. A throwing invocation ends only its own coroutine; the
   * fields it assigned before the throw keep their new values.
   */
  datatype Step = Step(writer: Writer, fault: Option<Fault>)

  /** The faults of a step, as a list. */
  function Raised(f: Option<Fault>): seq<Fault>
  {
    if f.Some? then [f.value] else []
  }

  /**
   * `TextAnimator`: advances the index by one, displays the source without
   * its characters from `index - 1` on, and schedules either the next step
   * or, at the end of the source, the whole source and `PrintFinished`.
   * When `Remove` throws, the index has already advanced, and nothing is
   * displayed or scheduled.
   */
  function TextAnimatorStep(w: Writer): (r: Step)
    ensures r.fault.None? <==> w.index < |w.source|
    ensures && r.writer.index == w.index + 1
            && r.writer.source == w.source
            && r.writer.fired == w.fired && r.writer.callbacks == w.callbacks
            && r.writer.onStartPrint == w.onStartPrint
    ensures r.fault.Some? ==> r.fault == Some(RemoveOutOfRange) && r.writer.text == w.text && r.writer.pending == w.pending
    ensures r.fault.None? ==> r.writer.text == Displayed(w.source, r.writer.index)
    ensures r.fault.None? && r.writer.index < |w.source| ==>
              r.writer.text == w.source[..r.writer.index - 1] && r.writer.pending == w.pending + [TextAnimator]
    ensures r.fault.None? && r.writer.index == |w.source| ==>
              r.writer.text == w.source && r.writer.pending == w.pending + [PrintFinished]
  {
    var index := w.index + 1;
    var counted := w.(index := index);
    match Remove(w.source, index - 1)
    case Err(fault) => Step(counted, Some(fault))
    case Ok(shown) =>
      if index == |w.source| then
        Step(counted.(text := w.source, pending := w.pending + [PrintFinished]), None)
      else
        Step(counted.(text := shown, pending := w.pending + [TextAnimator]), None)
  }

  /** `PrintFinished`: invokes every registered callback once, in list order. */
  function PrintFinishedStep(w: Writer): (r: Writer)
    ensures r == w.(fired := r.fired)
    ensures w.callbacks.None? ==> r.fired == w.fired
    ensures w.callbacks.Some? ==>
      && |r.fired| == |w.fired| + |w.callbacks.value|
      && r.fired[..|w.fired|] == w.fired
      && forall k :: 0 <= k < |w.callbacks.value| ==> r.fired[|w.fired| + k] == w.callbacks.value[k]
  {
    match w.callbacks
    case None => w
    case Some(cbs) => w.(fired := w.fired + cbs)
  }

  /**
   * The scheduler: runs the earliest pending action, if any. An action that
   * throws is dropped on its own; every other pending invocation stays
   * scheduled, and only a successful step adds to the queue.
   */
  function Tick(w: Writer): (r: Step)
    ensures w.pending == [] ==> r == Step(w, None)
    ensures w.pending != [] ==> |r.writer.pending| >= |w.pending| - 1 && r.writer.pending[..|w.pending| - 1] == w.pending[1..]
    ensures r.fault.Some? ==> w.pending != [] && w.pending[0] == TextAnimator && r.writer.pending == w.pending[1..]
    ensures w.pending != [] && w.pending[0] == TextAnimator ==> r == TextAnimatorStep(w.(pending := w.pending[1..]))
    ensures w.pending != [] && w.pending[0] == PrintFinished ==> r == Step(PrintFinishedStep(w.(pending := w.pending[1..])), None)
  {
    if w.pending == [] then Step(w, None)
    else
      var rest := w.(pending := w.pending[1..]);
      match w.pending[0]
      case TextAnimator => TextAnimatorStep(rest)
      case PrintFinished => Step(PrintFinishedStep(rest), None)
  }

  /** The writer after `n` scheduler ticks, and every fault raised on the way, in order. */
  datatype Trace = Trace(writer: Writer, faults: seq<Fault>)

  /** `n` scheduler ticks; a fault ends only the action that raised it. */
  function Run(w: Writer, n: nat): Trace
    decreases n
  {
    if n == 0 then Trace(w, [])
    else
      var before := Run(w, n - 1);
      var step := Tick(before.writer);
      Trace(step.writer, before.faults + Raised(step.fault))
  }

  /**
   * After a fresh start with nothing else pending, the first `k` ticks are
   * `k` animation steps that raise nothing: the index is `k`, the display is
   * `s[..k-1]` with the next step pending, until at `k == |s|` the whole of
   * `s` is shown and `PrintFinished` is pending. So exactly `|s|` steps run
   * before the finish is scheduled.
   */
  lemma {:induction false} Animates(w: Writer, s: Text, k: nat)
    requires |s| >= 1 && 1 <= k <= |s|
    requires PrintStart(w, s).pending == [TextAnimator]
    ensures var t := Run(PrintStart(w, s), k);
            var v := t.writer;
            && t.faults == []
            && v.index == k && v.source == s && v.fired == w.fired && v.callbacks == w.callbacks
            && (k < |s| ==> v.text == s[..k - 1] && v.pending == [TextAnimator])
            && (k == |s| ==> v.text == s && v.pending == [PrintFinished])
  {
    if k > 1 {
      Animates(w, s, k - 1);
    }
  }

  /** One tick after the last step, every callback has fired once, in order,
      the whole string is on display, nothing is pending and nothing was raised. */
  lemma Finishes(w: Writer, s: Text)
    requires |s| >= 1
    requires PrintStart(w, s).pending == [TextAnimator]
    ensures var t := Run(PrintStart(w, s), |s| + 1);
            && t.faults == []
            && t.writer.text == s && t.writer.pending == []
            && t.writer.fired == w.fired + (if w.callbacks.Some? then w.callbacks.value else [])
  {
    Animates(w, s, |s|);
    FinishTick(Run(PrintStart(w, s), |s|).writer);
  }

  /** A tick with only `PrintFinished` pending runs the callbacks and leaves
      nothing pending. */
  lemma FinishTick(v: Writer)
    requires v.pending == [PrintFinished]
    ensures Tick(v) == Step(PrintFinishedStep(v.(pending := [])), None)
  {
    assert v.pending[1..] == [];
  }

  /** Started on the empty string, the very first step throws: `Remove(0)`
      on `""` has no position 0. The index is left at 1 and nothing is
      pending, so `PrintFinished` is never scheduled. */
  lemma EmptySourceFaults(w: Writer)
    requires PrintStart(w, []).pending == [TextAnimator]
    ensures Run(PrintStart(w, []), 1) == Trace(PrintStart(w, []).(index := 1, pending := []), [RemoveOutOfRange])
  {
  }

  /** "a😀b" in UTF-16: the emoji is a surrogate pair. */
  const SurrogateSample: Text := [0x61, 0xD83D, 0xDE00, 0x62]

  /** A character outside the Basic Multilingual Plane takes two steps: the
      four code units of "a😀b" run four steps, and the third shows the lone
      high surrogate after the "a". */
  lemma SurrogatePairSteps(w: Writer)
    requires PrintStart(w, SurrogateSample).pending == [TextAnimator]
    ensures Run(PrintStart(w, SurrogateSample), 3).writer.text == [0x61, 0xD83D]
    ensures Run(PrintStart(w, SurrogateSample), 3).writer.pending == [TextAnimator]
    ensures Run(PrintStart(w, SurrogateSample), 4).writer.pending == [PrintFinished]
  {
    Animates(w, SurrogateSample, 3);
    Animates(w, SurrogateSample, 4);
  }

  /** A fresh start displays a prefix of its source: the empty one. */
  lemma PrintStartPrefix(w: Writer, s: Text)
    ensures PrintStart(w, s).text <= PrintStart(w, s).source
  {
  }

  /** Every tick keeps the source and keeps the display a prefix of it,
      whichever action runs and whether or not it throws. */
  lemma TickKeepsPrefix(w: Writer)
    requires w.text <= w.source
    ensures Tick(w).writer.source == w.source
    ensures Tick(w).writer.text <= Tick(w).writer.source
  {
  }

  /** So the display stays a prefix of the source over any number of ticks,
      including faults and interleaved animation chains. */
  lemma {:induction false} RunKeepsPrefix(w: Writer, n: nat)
    requires w.text <= w.source
    ensures Run(w, n).writer.source == w.source
    ensures Run(w, n).writer.text <= Run(w, n).writer.source
    decreases n
  {
    if n > 0 {
      RunKeepsPrefix(w, n - 1);
      TickKeepsPrefix(Run(w, n - 1).writer);
    }
  }

  /** The display is always a prefix of the source, one character shorter
      than the index until the end, where it is the whole source. */
  lemma DisplayedIsPrefix(s: Text, k: nat)
    requires k <= |s|
    ensures |Displayed(s, k)| == (if k == |s| then |s| else if k == 0 then 0 else k - 1)
    ensures Displayed(s, k) <= s
  {
  }
}
